=== FILE: README.md ===
# RAG news assistant: the deterministic core, in Dafny

The application is a browser demo of a retrieval-augmented news assistant.
A language model does the actual retrieval and answering. Around those calls
sits a small layer of deterministic logic, and this project models it:

- **The query turn** (`performRAGQuery`). If the library is empty, the turn
  returns a canned answer. Otherwise the model's relevance reply is parsed
  into article positions, and those positions are mapped to articles. The
  generator is given the last four chat turns. An empty generator reply is
  replaced by a fallback text. Finally one log entry is appended and the
  session history grows by a question and an answer.
- **The store** (`DatabaseService`). The article collection is replaced
  wholesale. The log is append-only. Sessions are kept in a list with
  find-first-by-id, upsert-by-id and delete-all-by-id. An absent storage
  key reads as an empty list.
- **The analytics view.** From the log it derives the total count, the
  rounded mean latency and the number of distinct sessions. It also builds
  the chart series over the latest twenty entries and a table of the latest
  ten, newest first, with slow latencies flagged.

Everything is a pure function over immutable sequences. The two
language-model replies, the two clock readings and the ISO timestamp are
parameters of the turn. The turn returns the answer, the new store, and the
requests handed to the model. The requests carry the headline list, the
context articles and the history window, so what the generator was shown
can be stated.

Files, one module each:

| file | module | models |
|---|---|---|
| `types.dfy` | `Types` | the records of `types.ts`, plus `Option` and `Result` |
| `js_builtins.dfy` | `JsBuiltins` | the JavaScript built-ins whose exact behaviour matters here: `trim`, `split(',')`, `parseInt` without a radix, `slice(-k)`, `reverse` and the UTF-16 `length` of a string |
| `db.dfy` | `Db` | `services/db.ts` |
| `gemini_service.dfy` | `RagQuery` | `performRAGQuery` in `services/geminiService.ts` |
| `analytics_dashboard.dfy` | `Analytics` | the derivations in `components/AnalyticsDashboard.tsx` |
| `app_properties.dfy` | `AppProperties` | behaviour across the store, the turn and the view |

### Behaviour worth knowing

- **No cap on selected articles.** The selection prompt asks for at most
  five ids (services/geminiService.ts:28). Nothing in the parsing at
  services/geminiService.ts:37-40 enforces that: every valid token is kept,
  repeats included. `RagQuery.SelectedIdsRoundTrip` reads back a list of any
  length.
- **Only bare numbers select articles.** The headlines are shown as
  `ID: n | Title: …` (services/geminiService.ts:26). A reply that echoes the
  label, as in `ID: 3`, selects nothing, because `parseInt` needs a digit
  right after the optional sign (`RagQuery.EchoedHeadlineIdDropped`).
- **Hex tokens are accepted.** `parseInt` without a radix reads a `0x`
  prefix as hexadecimal (`JsBuiltins.ParseIntHex`). So a selector token
  `0x1` selects article 1. A token `-0` selects article 0, because
  `-0 >= 0` holds for doubles.
- **Clearing the library does not reset analytics.** Clearing writes an
  empty article list. The analytics view reads only the log
  (components/AnalyticsDashboard.tsx:10), which clearing leaves alone.
  `AppProperties.ClearingLibraryKeepsAnalytics` proves the view is unchanged.
- **Empty queries are not rejected by the turn.** Only the chat form refuses
  blank input (components/ChatInterface.tsx:26). `performRAGQuery` accepts
  any query text.

## Model

| member | source | states |
|---|---|---|
| `JsBuiltins.Trim` | services/geminiService.ts:39 | the trimmed token has no white space at either end and is no longer than the token |
| `JsBuiltins.TrimPadded` | services/geminiService.ts:39 | trimming white space + core + white space gives exactly the core, so trim removes only the padding at the two ends |
| `JsBuiltins.Split` | services/geminiService.ts:38 | splitting on `,` gives at least one piece (the empty reply gives one empty piece); no piece contains a comma; joining the pieces with commas restores the reply |
| `JsBuiltins.SplitNoSeparator` | services/geminiService.ts:38 | text without a comma is a single piece |
| `JsBuiltins.SplitAtSeparator` | services/geminiService.ts:38 | the pieces of `a + "," + b` are the pieces of `a` followed by the pieces of `b` |
| `JsBuiltins.SplitJoin` | services/geminiService.ts:38 | split on a separator inverts join for pieces that do not contain it |
| `JsBuiltins.ParseInt` | services/geminiService.ts:39 | NaN when, past the leading white space and an optional sign, the text does not start with a decimal digit (so also when it has no digit at all) |
| `JsBuiltins.ParseSigned` | services/geminiService.ts:39 | without a `0x` prefix after the sign, a number is read exactly when a decimal digit follows the sign; with one, exactly when a hex digit follows the prefix; a leading `-` makes the number non-positive, otherwise it is non-negative |
| `JsBuiltins.ParseUnsigned` | services/geminiService.ts:39 | without a `0x` prefix, NaN exactly when the text does not start with a decimal digit; with one, NaN exactly when no hex digit follows the prefix; never negative |
| `JsBuiltins.ParseDigits` | services/geminiService.ts:39 | NaN exactly when the text does not start with a digit of the base, otherwise a non-negative value; `JsBuiltins.ParseDigitsRun` gives that value as the longest digit run's |
| `JsBuiltins.ParseDigitsRun` | services/geminiService.ts:39 | once the longest run of digits is known, the value read is the value of that run, whatever follows it |
| `JsBuiltins.ParseIntNeedsLeadingDigit` | services/geminiService.ts:39 | for any white space followed by text that, past an optional sign, does not start with a decimal digit, `parseInt` gives NaN (`ID: 3`, `[3]`, `- 3`) |
| `JsBuiltins.ParseIntNoWhiteSpace` | services/geminiService.ts:39 | text that does not start with white space is read from its first character |
| `JsBuiltins.ParseUnsignedDecimal` | services/geminiService.ts:39 | the unsigned reading of a decimal number followed by a non-digit is that number |
| `JsBuiltins.ParseIntDecimalPrefix` | services/geminiService.ts:39 | `parseInt` reads a decimal number back exactly and ignores trailing text that does not continue it (`12abc` gives 12) |
| `JsBuiltins.ParseIntDecimal` | services/geminiService.ts:39 | `parseInt` reads the plain decimal digits of every natural `n` back as `n` (which is what `String(n)` writes for an integer-valued Number below 10^21) |
| `JsBuiltins.ParseIntNegative` | services/geminiService.ts:39 | a minus sign before a decimal number gives its negation |
| `JsBuiltins.ParseIntHex` | services/geminiService.ts:39 | with no radix, a `0x` prefix makes the digits hexadecimal |
| `JsBuiltins.ParseIntSkipsWhiteSpace` | services/geminiService.ts:39 | leading white space never changes the parsed number |
| `JsBuiltins.SliceLast` | services/geminiService.ts:47 | `slice(-k)` keeps the last `min(k, n)` elements, in order; `slice(-0)` is `slice(0)` and keeps the whole array |
| `JsBuiltins.SliceLastIsSuffix` | services/geminiService.ts:47 | what `slice(-k)` drops, followed by what it keeps, is the whole array |
| `JsBuiltins.Reverse` | components/AnalyticsDashboard.tsx:132 | the reversal has the same length, and element `i` is element `n-1-i` of the input |
| `JsBuiltins.ReverseReverse` | components/AnalyticsDashboard.tsx:132 | reversing twice restores the array |
| `JsBuiltins.SliceLastReversed` | components/AnalyticsDashboard.tsx:132 | element `i` of `slice(-k).reverse()` is element `n-1-i` of the array, so the newest comes first |
| `JsBuiltins.Utf16Length` | components/AnalyticsDashboard.tsx:16-17 | a string's JavaScript length is between its character count and twice that; `Utf16LengthOfChar` and `Utf16LengthConcat` fix it exactly |
| `JsBuiltins.Utf16LengthOfChar` | components/AnalyticsDashboard.tsx:16-17 | a character outside the Basic Multilingual Plane counts as two code units, any other as one |
| `JsBuiltins.Utf16LengthConcat` | components/AnalyticsDashboard.tsx:16-17 | the length of a concatenation is the sum of the lengths |
| `JsBuiltins.Utf16LengthBmp` | components/AnalyticsDashboard.tsx:16-17 | for text inside the Basic Multilingual Plane, the length is the character count |
| `Db.EmptyStoreReadsEmpty` | services/db.ts:6-9 | before any write, the articles and logs read as empty lists and no session is found |
| `Db.Load` | services/db.ts:6-9 | an absent key reads as `[]`, a written key as exactly the list written; `Db.EmptyStoreReadsEmpty` and the save operations' contracts are its partners |
| `Db.GetArticles` | services/db.ts:20-22 | the articles last saved, or `[]` before any save; `Db.SaveArticles` states the save-then-read round trip |
| `Db.GetLogs` | services/db.ts:62-64 | the logged entries, or `[]` before any; `Db.LogInteraction` states that each write appends exactly one |
| `Db.GetSessions` | services/db.ts:35-40 | the stored session list each session operation reads first, or `[]` before any save; `Db.GetAfterSave` and `Db.GetAfterClear` state the round trips |
| `Db.SaveArticles` | services/db.ts:16-22 | reading the articles after saving gives exactly the saved list, with nothing merged from before; sessions and logs are untouched |
| `Db.LogInteraction` | services/db.ts:56-64 | the log afterwards is the old log followed by exactly the new entry; articles and sessions are untouched |
| `Db.FindSessionIndex` | services/db.ts:41 | the result is -1 exactly when no session has the id; otherwise it is the position of the first session with that id |
| `Db.GetSession` | services/db.ts:34-37 | the result is absent exactly when no stored session has the id; otherwise it is the first stored session with that id |
| `Db.UpsertSession` | services/db.ts:41-46 | an existing id: same length, the first match replaced by the new session, every other entry unchanged; a new id: the session appended after all the old entries |
| `Db.SaveSession` | services/db.ts:39-48 | the stored sessions become the upsert of the old ones; articles and logs are untouched |
| `Db.GetAfterSave` | services/db.ts:34-48 | after saving a session, looking up its id returns that session |
| `Db.SaveKeepsOtherSessions` | services/db.ts:39-48 | saving a session does not change the lookup result for any other id |
| `Db.SavePreservesDistinctIds` | services/db.ts:39-48 | if the stored ids were distinct before a save, they are distinct after it |
| `Db.RemoveSessions` | services/db.ts:52 | the result contains exactly the stored sessions whose id differs, and is no longer than before |
| `Db.RemoveSessionsConcat` | services/db.ts:52 | removal commutes with concatenation, so the kept sessions stay in their original relative order |
| `Db.RemoveAbsentSession` | services/db.ts:52 | clearing an id that is not stored changes nothing |
| `Db.ClearSession` | services/db.ts:50-53 | the stored sessions become the old ones minus that id; articles and logs are untouched |
| `Db.GetAfterClear` | services/db.ts:34-53 | after clearing an id, looking it up finds nothing |
| `Db.ClearKeepsOtherSessions` | services/db.ts:50-53 | clearing one id does not change the lookup result for any other id |
| `RagQuery.TokenId` | services/geminiService.ts:39-40 | an accepted token's id is a valid article position |
| `RagQuery.TextOrEmpty` | services/geminiService.ts:37 | an absent selector text reads as `""`, a present one as itself; `RagQuery.SelectedIdsOfEmpty` and `RagQuery.QueryEmptySelection` state what that selects |
| `RagQuery.ValidIds` | services/geminiService.ts:39-40 | no more ids than tokens, and every id is below the article count |
| `RagQuery.ValidIdsConcat` | services/geminiService.ts:39-40 | the filter works token by token, in order |
| `RagQuery.SelectedIds` | services/geminiService.ts:37-40 | every selected id satisfies `0 <= id < |articles|`, and there are at most as many ids as comma-separated tokens |
| `RagQuery.SelectedIdsOfToken` | services/geminiService.ts:37-40 | a reply with one token yields that token's id if it is valid, and nothing otherwise |
| `RagQuery.SelectedIdsAtComma` | services/geminiService.ts:37-40 | the ids from before a comma come first, then the ids after it, with no reordering or deduplication |
| `RagQuery.SelectedIdsOfEmpty` | services/geminiService.ts:37-40 | an empty reply selects nothing |
| `RagQuery.TokenIdOfDecimal` | services/geminiService.ts:39-40 | a decimal number below the article count, possibly after spaces, is accepted as itself |
| `RagQuery.SelectedIdsOfDecimal` | services/geminiService.ts:37-40 | a reply holding one valid number selects exactly that article |
| `RagQuery.SelectedIdsRoundTrip` | services/geminiService.ts:28-40 | any list of valid positions written in the prompt's format `0, 12, 4` is parsed back exactly, whatever its length and with repeats kept |
| `RagQuery.NegativeTokenDropped` | services/geminiService.ts:39-40 | a negative number is dropped, also after white space as in the `0, 12, 4` format |
| `RagQuery.OutOfRangeTokenDropped` | services/geminiService.ts:39-40 | a number at or past the article count is dropped, also after white space |
| `RagQuery.NonNumericTokenDropped` | services/geminiService.ts:39-40 | a token that, once trimmed and past an optional sign, does not start with a digit is dropped, whatever follows |
| `RagQuery.EchoedHeadlineIdDropped` | services/geminiService.ts:26-40 | a token that echoes a headline label, `ID: n`, is dropped even when `n` is a valid position |
| `RagQuery.MapSources` | services/geminiService.ts:42 | as many sources as ids, and source `k` is the article at position `ids[k]` |
| `RagQuery.Headlines` | services/geminiService.ts:26 | the selector is shown every title, and the title at position `i` is article `i`'s |
| `RagQuery.HistoryWindow` | services/geminiService.ts:46-47 | empty without a session; otherwise the last `min(4, |history|)` turns, which the rest of the history precedes |
| `RagQuery.FinalResponse` | services/geminiService.ts:67 | the response is never empty: the generated text when present and non-empty, otherwise the fixed apology |
| `RagQuery.PriorHistory` | services/geminiService.ts:81 | the stored history of the session, or `[]` when there is none; `RagQuery.QueryUpdatesSession` states how the turn extends it |
| `RagQuery.LogEntry` | services/geminiService.ts:71-77 | the entry records the ISO time, session id, query, final response and `end - start` latency, and no token count; `RagQuery.QueryLogsOnce` states that exactly this entry is appended |
| `RagQuery.NextSession` | services/geminiService.ts:81-83 | the session keeps its id, is last used at the end time, and its history is the prior history followed by the question at the start time and the answer at the end time |
| `RagQuery.PerformRagQuery` | services/geminiService.ts:10-86 | an empty library gives the canned message, no sources, no model call and an unchanged store; a failed call leaves the store unchanged; the articles are never changed; every source is a stored article |
| `RagQuery.QuerySources` | services/geminiService.ts:37-42 | the sources are the articles at the parsed positions, in the selector's order |
| `RagQuery.QueryEmptySelection` | services/geminiService.ts:37-42 | an absent or empty selector reply gives an empty source list |
| `RagQuery.QueryResponse` | services/geminiService.ts:67 | the answer is the generated text, or the apology when that text is absent or empty |
| `RagQuery.QueryHistoryWindow` | services/geminiService.ts:46-65 | the generator receives the query, the sources and the last `min(4, n)` stored turns, none when there is no session |
| `RagQuery.QueryLogsOnce` | services/geminiService.ts:71-78 | a successful turn appends exactly one entry; it records the session id, query, response, ISO time and `end - start` latency; the earlier entries are unchanged |
| `RagQuery.QueryUpdatesSession` | services/geminiService.ts:81-83 | the saved session holds the old history (or none) followed by the user turn at the start time and the assistant turn at the end time, so it is two longer; it is last used at the end time |
| `RagQuery.QueryKeepsOtherSessions` | services/geminiService.ts:81-83 | a turn leaves every other session as it was |
| `Analytics.RoundHalfUp` | components/AnalyticsDashboard.tsx:28 | the result is within one half of `p / q`, with halves rounded up, which is what `Math.round` does |
| `Analytics.TotalLatency` | components/AnalyticsDashboard.tsx:23 | the `reduce` sum: 0 for an empty log and never negative when no latency is; `Analytics.TotalLatencyConcat` and `Analytics.TotalLatencyBounds` are its partners |
| `Analytics.TotalLatencyConcat` | components/AnalyticsDashboard.tsx:23 | the sum of a log split in two is the sum of the two parts |
| `Analytics.AverageLatency` | components/AnalyticsDashboard.tsx:23-28 | 0 for an empty log; otherwise the mean latency rounded half up |
| `Analytics.TotalLatencyBounds` | components/AnalyticsDashboard.tsx:23 | the latency sum lies between the count times the smallest and the count times the largest latency |
| `Analytics.AverageWithinRange` | components/AnalyticsDashboard.tsx:23-28 | the displayed average never leaves the range of the logged latencies |
| `Analytics.SessionIdsBound` | components/AnalyticsDashboard.tsx:24 | there are no more distinct sessions than entries, and at least one when the log is not empty |
| `Analytics.SessionIds` | components/AnalyticsDashboard.tsx:24 | the set holds exactly the session ids that occur in the log; `Analytics.SessionIdsBound` bounds its size |
| `Analytics.SessionIdsSnoc` | components/AnalyticsDashboard.tsx:24 | the sessions of a log are those of all but its last entry plus the last entry's |
| `Analytics.ComputeStats` | components/AnalyticsDashboard.tsx:21-31 | the total is the entry count; the active sessions are the distinct ids, at most the total and at least 1 when there are entries; the average is the rounded mean, or 0 |
| `Analytics.ChartData` | components/AnalyticsDashboard.tsx:12-19 | `min(20, n)` points over the latest entries, oldest first; point `i` is named `i+1` and carries that entry's latency and its query and response lengths |
| `Analytics.Plot` | components/AnalyticsDashboard.tsx:14-17 | a point carries its number, the latency and the UTF-16 lengths of query and response, each between the character count and twice it |
| `Analytics.ChartShowsNewest` | components/AnalyticsDashboard.tsx:13-18 | after an entry is appended, the last point describes it |
| `Analytics.ChartGrows` | components/AnalyticsDashboard.tsx:13 | below twenty entries, appending keeps every earlier point |
| `Analytics.ChartSlides` | components/AnalyticsDashboard.tsx:13 | at twenty or more entries, appending drops the oldest point and shifts the rest one place, renumbered |
| `Analytics.TableRows` | components/AnalyticsDashboard.tsx:132-139 | `min(10, n)` rows, newest first (row `i` shows entry `n-1-i`); a row is flagged slow exactly when its latency exceeds 2000 ms |
| `Analytics.Row` | components/AnalyticsDashboard.tsx:134-143 | a row shows the entry's timestamp, session id, latency and query, and is flagged slow exactly when the latency exceeds 2000 ms |
| `Analytics.TableAfterAppend` | components/AnalyticsDashboard.tsx:132 | appending an entry puts its row on top and pushes every other row down one place |
| `Analytics.RenderDashboard` | components/AnalyticsDashboard.tsx:146-150 | the "no logs" placeholder shows exactly when the table is empty, which is exactly when the total is 0; statistics are then all 0 and the chart empty |
| `Analytics.ViewAfterAppend` | components/AnalyticsDashboard.tsx:10-31 | after one more entry is logged, the total grows by one, the placeholder is gone, the entry's row is on top of the table and its point is last in the chart |
| `AppProperties.LogIsAppendOnly` | services/db.ts:56-60 | every turn, answered or not, keeps the earlier log as a prefix and adds at most one entry |
| `AppProperties.ReingestionReplacesSources` | services/geminiService.ts:15-42 | after re-ingestion, answers cite only articles of the new collection |
| `AppProperties.ClearedLibraryAnswersCanned` | services/geminiService.ts:15-19 | after the library is cleared, a turn returns the canned message, calls no model and changes nothing |
| `AppProperties.ClearingLibraryKeepsAnalytics` | components/AnalyticsDashboard.tsx:10-31 | clearing the library leaves the whole analytics view unchanged |
| `AppProperties.ResetConversationStartsFresh` | services/geminiService.ts:46-83 | after a reset, the next turn shows the generator no history and saves a history of just the new question and answer |
| `AppProperties.AnsweredTurnAppearsInAnalytics` | services/geminiService.ts:71-78 | after an answered turn, the total grows by one, the top table row is that turn, and the last chart point carries its latency |

## Left out

- The language-model calls (services/geminiService.ts:6, 32-35, 62-65). They are a network client. Their replies are parameters: some text, no text, or a failed call.
- The prompt wording (services/geminiService.ts:23-30, 43, 49-60). This covers the template text, the `contextText` join and the `role: content` history join. The model keeps only the values given to the model: the query, the headlines, the context articles and the history window.
- `generateMockArticles` (services/geminiService.ts:88-105). It is `JSON.parse` of model output with no validation. Ingestion appears only as `Db.SaveArticles`.
- `localStorage`, `JSON.stringify` and `JSON.parse` (services/db.ts:6-13). This is I/O. The store is a record of optional lists. A stored empty string would also read as an empty list, but `set` never writes one.
- The vector store (`saveVectors`/`getVectors`, services/db.ts:25-31) and `EMBEDDING_DIMENSION`. Nothing reads or writes them.
- `Date.now()` and `new Date().toISOString()`. Both are clock reads. They are parameters, and the ISO text is opaque.
- Interleaving across `await`s. The source reads the articles, the session and the log at different moments. The model reads one snapshot of the store. Writes by other tabs during a turn are not modelled. Neither are writes from the same tab: the reset button (components/ChatInterface.tsx:60-65) stays enabled while a turn runs, and a reset made after the session is read (services/geminiService.ts:46) is undone by the save at services/geminiService.ts:83, which writes back the old history plus the new turn.
- The React views (ChatInterface, IngestionPanel, Layout, App). This includes chart rendering, `toLocaleString` date formatting, random session ids, timers, alerts and the error message shown after a failed turn. These are UI effects.
- JavaScript numbers are doubles. The model uses unbounded integers for timestamps, latencies and sums. `Math.round` of the double quotient is modelled as exact rounding of the rational mean. The two agree while the latency total stays below 2^52 in magnitude. Past that, the double quotient can round a mean just below a half up to the half: latencies 2^51, 2^51 and 2^51+1 sum to less than 2^53, so the sum is exact, but `Math.round` gives one more than `Analytics.RoundHalfUp`.
- Strings with unpaired UTF-16 surrogates. A Dafny character is a Unicode scalar value, so such strings cannot be written. `JsBuiltins.Utf16Length` counts the code units of every other string.
- The optional `tokens` log field. The source never sets it, so the model always leaves it absent.

=== FILE: analytics_dashboard.dfy ===
/** The numbers the analytics view derives from the interaction log
    (components/AnalyticsDashboard.tsx): the three headline statistics, the
    chart series over the latest twenty entries and the table of the latest
    ten, newest first. Rendering is not modelled. */
module Analytics {
  import opened Types
  import opened JsBuiltins

  /** How many of the latest entries the charts plot. */
  const ChartWindow := 20

  /** How many of the latest entries the table lists. */
  const TableWindow := 10

  /** A latency above this many milliseconds is flagged in the table. */
  const SlowLatencyMs := 2000

  // ---------------------------------------------------------------------
  // Headline statistics
  // ---------------------------------------------------------------------

  datatype Stats = Stats(totalInteractions: nat, avgResponseTime: int, activeSessions: nat)

  /** `logs.reduce((acc, curr) => acc + curr.responseTimeMs, 0)`. */
  function TotalLatency(logs: seq<InteractionLog>): (total: int)
    ensures |logs| == 0 ==> total == 0
    ensures (forall i :: 0 <= i < |logs| ==> logs[i].responseTimeMs >= 0) ==> total >= 0
  {
    if |logs| == 0 then 0
    else
      var init := logs[..|logs| - 1];
      assert forall i :: 0 <= i < |init| ==> init[i] == logs[i];
      TotalLatency(init) + logs[|logs| - 1].responseTimeMs
  }

  /** The sum does not depend on how the log is split: it is a fold that
      starts at 0 and adds each latency once. */
  lemma {:induction false} TotalLatencyConcat(a: seq<InteractionLog>, b: seq<InteractionLog>)
    ensures TotalLatency(a + b) == TotalLatency(a) + TotalLatency(b)
  {
    if |b| > 0 {
      var ab := a + b;
      assert ab[..|ab| - 1] == a + b[..|b| - 1];
      assert ab[|ab| - 1] == b[|b| - 1];
      TotalLatencyConcat(a, b[..|b| - 1]);
    } else {
      assert a + b == a;
    }
  }

  /** `Math.round(p / q)`: the nearest integer, halves rounded up. */
  function RoundHalfUp(p: int, q: int): (r: int)
    requires q > 0
    ensures 2 * q * r - q <= 2 * p < 2 * q * r + q
  {
    var x, d := 2 * p + q, 2 * q;
    var r := x / d;
    assert d * r <= x < d * r + d;
    assert 2 * q * r == d * r;
    r
  }

  /** The rounded mean latency, 0 for an empty log. */
  function AverageLatency(logs: seq<InteractionLog>): (avg: int)
    ensures |logs| == 0 ==> avg == 0
    ensures |logs| > 0 ==>
      2 * |logs| * avg - |logs| <= 2 * TotalLatency(logs) < 2 * |logs| * avg + |logs|
  {
    if |logs| == 0 then 0 else RoundHalfUp(TotalLatency(logs), |logs|)
  }

  /** `new Set(logs.map(l => l.sessionId))`. */
  function SessionIds(logs: seq<InteractionLog>): (ids: set<string>)
    ensures forall i :: 0 <= i < |logs| ==> logs[i].sessionId in ids
    ensures forall id :: id in ids ==> exists i :: 0 <= i < |logs| && logs[i].sessionId == id
  {
    set i | 0 <= i < |logs| :: logs[i].sessionId
  }

  /** There are no more distinct sessions than entries, and at least one
      when there is an entry. */
  lemma {:induction false} SessionIdsBound(logs: seq<InteractionLog>)
    ensures |SessionIds(logs)| <= |logs|
    ensures |logs| > 0 ==> |SessionIds(logs)| >= 1
  {
    if |logs| > 0 {
      var init := logs[..|logs| - 1];
      SessionIdsBound(init);
      SessionIdsSnoc(logs);
    }
  }

  /** The sessions of a log are those of all but its last entry, plus the
      last entry's. */
  lemma SessionIdsSnoc(logs: seq<InteractionLog>)
    requires |logs| > 0
    ensures SessionIds(logs) == SessionIds(logs[..|logs| - 1]) + {logs[|logs| - 1].sessionId}
  {
    var init := logs[..|logs| - 1];
    forall id | id in SessionIds(logs)
      ensures id in SessionIds(init) + {logs[|logs| - 1].sessionId}
    {
      var i :| 0 <= i < |logs| && logs[i].sessionId == id;
      if i < |logs| - 1 {
        assert init[i] == logs[i];
      }
    }
    forall id | id in SessionIds(init)
      ensures id in SessionIds(logs)
    {
      var i :| 0 <= i < |init| && init[i].sessionId == id;
      assert logs[i] == init[i];
    }
  }

  /** The `stats` of the view. */
  function ComputeStats(logs: seq<InteractionLog>): (s: Stats)
    ensures s.totalInteractions == |logs|
    ensures s.activeSessions == |SessionIds(logs)|
    ensures s.activeSessions <= s.totalInteractions
    ensures |logs| > 0 ==> s.activeSessions >= 1
    ensures |logs| == 0 ==> s.avgResponseTime == 0
    ensures |logs| > 0 ==>
      2 * |logs| * s.avgResponseTime - |logs| <= 2 * TotalLatency(logs) < 2 * |logs| * s.avgResponseTime + |logs|
  {
    SessionIdsBound(logs);
    Stats(|logs|, AverageLatency(logs), |SessionIds(logs)|)
  }

  /** The sum of latencies lies between count times the least and count times the greatest. */
  lemma {:induction false} TotalLatencyBounds(logs: seq<InteractionLog>, lo: int, hi: int)
    requires forall i :: 0 <= i < |logs| ==> lo <= logs[i].responseTimeMs <= hi
    ensures |logs| * lo <= TotalLatency(logs) <= |logs| * hi
  {
    if |logs| > 0 {
      var init := logs[..|logs| - 1];
      assert forall i :: 0 <= i < |init| ==> init[i] == logs[i];
      TotalLatencyBounds(init, lo, hi);
      assert |logs| * lo == |init| * lo + lo;
      assert |logs| * hi == |init| * hi + hi;
    }
  }

  /** From `n * x <= 0` with `n > 0`, `x <= 0`. */
  lemma PositiveFactor(n: int, x: int)
    requires n > 0 && n * x <= 0
    ensures x <= 0
  {
  }

  /** A half-up rounding of `sum / n` is at most `hi` when `sum <= n * hi`. */
  lemma RoundedAtMost(n: int, avg: int, sum: int, hi: int)
    requires n > 0
    requires 2 * n * avg - n <= 2 * sum
    requires sum <= n * hi
    ensures avg <= hi
  {
    assert n * (2 * avg - 2 * hi - 1) == 2 * n * avg - n - 2 * (n * hi);
    PositiveFactor(n, 2 * avg - 2 * hi - 1);
  }

  /** A half-up rounding of `sum / n` is at least `lo` when `n * lo <= sum`. */
  lemma RoundedAtLeast(n: int, avg: int, sum: int, lo: int)
    requires n > 0
    requires 2 * sum < 2 * n * avg + n
    requires n * lo <= sum
    ensures lo <= avg
  {
    assert n * (2 * lo - 2 * avg - 1) == 2 * (n * lo) - 2 * n * avg - n;
    PositiveFactor(n, 2 * lo - 2 * avg - 1);
  }

  /** The average never leaves the range of the latencies it averages; in
      particular the average of equal latencies is that latency. */
  lemma AverageWithinRange(logs: seq<InteractionLog>, lo: int, hi: int)
    requires |logs| > 0
    requires forall i :: 0 <= i < |logs| ==> lo <= logs[i].responseTimeMs <= hi
    ensures lo <= AverageLatency(logs) <= hi
  {
    TotalLatencyBounds(logs, lo, hi);
    RoundedAtMost(|logs|, AverageLatency(logs), TotalLatency(logs), hi);
    RoundedAtLeast(|logs|, AverageLatency(logs), TotalLatency(logs), lo);
  }

  // ---------------------------------------------------------------------
  // Chart series
  // ---------------------------------------------------------------------

  /** One plotted point; lengths are JavaScript string lengths. */
  datatype ChartPoint = ChartPoint(name: nat, responseTime: int, queryLength: nat, responseLength: nat)

  /** The point the view plots for `log` at 1-based position `name`. */
  function Plot(name: nat, log: InteractionLog): (p: ChartPoint)
    ensures p.name == name && p.responseTime == log.responseTimeMs
    ensures p.queryLength == Utf16Length(log.userQuery) && p.responseLength == Utf16Length(log.llmResponse)
    ensures |log.userQuery| <= p.queryLength <= 2 * |log.userQuery|
    ensures |log.llmResponse| <= p.responseLength <= 2 * |log.llmResponse|
  {
    ChartPoint(name, log.responseTimeMs, Utf16Length(log.userQuery), Utf16Length(log.llmResponse))
  }

  /** `chartData`: the latest twenty entries, oldest first, numbered from 1. */
  function ChartData(logs: seq<InteractionLog>): (points: seq<ChartPoint>)
    ensures |points| == if |logs| < ChartWindow then |logs| else ChartWindow
    ensures forall i :: 0 <= i < |points| ==> points[i] == Plot(i + 1, logs[|logs| - |points| + i])
    ensures forall i :: 0 <= i < |points| ==>
      var log := logs[|logs| - |points| + i];
      && points[i].name == i + 1
      && points[i].responseTime == log.responseTimeMs
      && points[i].queryLength == Utf16Length(log.userQuery)
      && points[i].responseLength == Utf16Length(log.llmResponse)
  {
    var window := SliceLast(logs, ChartWindow);
    seq(|window|, i requires 0 <= i < |window| => Plot(i + 1, window[i]))
  }

  /** Appending an entry plots it last. */
  lemma ChartShowsNewest(logs: seq<InteractionLog>, log: InteractionLog)
    ensures var after := ChartData(logs + [log]);
      after[|after| - 1] == Plot(|after|, log)
  {
    assert (logs + [log])[|logs|] == log;
  }

  /** While the window is not full, appending keeps every earlier point. */
  lemma ChartGrows(logs: seq<InteractionLog>, log: InteractionLog)
    requires |logs| < ChartWindow
    ensures forall i :: 0 <= i < |logs| ==> ChartData(logs + [log])[i] == ChartData(logs)[i]
  {
    var extended := logs + [log];
    var before, after := ChartData(logs), ChartData(extended);
    forall i | 0 <= i < |logs|
      ensures after[i] == before[i]
    {
      assert extended[i] == logs[i];
    }
  }

  /** Once the window is full, appending drops the oldest point and moves the
      others one place towards the start, keeping their measurements. */
  lemma ChartSlides(logs: seq<InteractionLog>, log: InteractionLog)
    requires |logs| >= ChartWindow
    ensures forall i :: 0 <= i < ChartWindow - 1 ==>
      ChartData(logs + [log])[i] == ChartData(logs)[i + 1].(name := i + 1)
  {
    var extended := logs + [log];
    var before, after := ChartData(logs), ChartData(extended);
    forall i | 0 <= i < ChartWindow - 1
      ensures after[i] == before[i + 1].(name := i + 1)
    {
      assert extended[|extended| - |after| + i] == logs[|logs| - |before| + i + 1];
    }
  }

  // ---------------------------------------------------------------------
  // Log table
  // ---------------------------------------------------------------------

  /** One table row: what the view shows of an entry. */
  datatype TableRow = TableRow(timestamp: string, sessionId: string, latencyMs: int, slow: bool, query: string)

  function Row(log: InteractionLog): (row: TableRow)
    ensures row.timestamp == log.timestamp && row.sessionId == log.sessionId
    ensures row.latencyMs == log.responseTimeMs && row.query == log.userQuery
    ensures row.slow <==> log.responseTimeMs > SlowLatencyMs
  {
    TableRow(log.timestamp, log.sessionId, log.responseTimeMs, log.responseTimeMs > SlowLatencyMs, log.userQuery)
  }

  /** `logs.slice(-10).reverse()`: the latest ten entries, newest first. */
  function TableRows(logs: seq<InteractionLog>): (rows: seq<TableRow>)
    ensures |rows| == if |logs| < TableWindow then |logs| else TableWindow
    ensures forall i :: 0 <= i < |rows| ==> rows[i] == Row(logs[|logs| - 1 - i])
    ensures forall i :: 0 <= i < |rows| ==> (rows[i].slow <==> logs[|logs| - 1 - i].responseTimeMs > SlowLatencyMs)
  {
    var newestFirst := Reverse(SliceLast(logs, TableWindow));
    SliceLastReversed(logs, TableWindow);
    seq(|newestFirst|, i requires 0 <= i < |newestFirst| => Row(newestFirst[i]))
  }

  /** Appending an entry puts its row on top and pushes the others down one
      place; the bottom row falls off once the table is full. */
  lemma TableAfterAppend(logs: seq<InteractionLog>, log: InteractionLog)
    ensures TableRows(logs + [log])[0] == Row(log)
    ensures forall i :: 1 <= i < |TableRows(logs + [log])| ==> TableRows(logs + [log])[i] == TableRows(logs)[i - 1]
  {
    var extended := logs + [log];
    var before, after := TableRows(logs), TableRows(extended);
    assert extended[|extended| - 1] == log;
    assert |after| <= |before| + 1;
    forall i | 1 <= i < |after|
      ensures after[i] == before[i - 1]
    {
      var j := |logs| - i;
      assert extended[j] == logs[j];
      assert after[i] == Row(extended[j]);
      assert before[i - 1] == Row(logs[j]);
    }
  }

  // ---------------------------------------------------------------------
  // The whole view
  // ---------------------------------------------------------------------

  /** Everything the view derives from the log, with the placeholder row
      "No interaction logs found." shown when the log is empty. */
  datatype Dashboard = Dashboard(stats: Stats, chart: seq<ChartPoint>, table: seq<TableRow>, showsNoLogsNotice: bool)

  function RenderDashboard(logs: seq<InteractionLog>): (d: Dashboard)
    ensures d.showsNoLogsNotice <==> |d.table| == 0
    ensures d.showsNoLogsNotice <==> d.stats.totalInteractions == 0
    ensures d.showsNoLogsNotice ==> d.stats == Stats(0, 0, 0) && d.chart == []
    ensures |d.table| <= |d.chart|
  {
    var d := Dashboard(ComputeStats(logs), ChartData(logs), TableRows(logs), |logs| == 0);
    assert |logs| == 0 ==> SessionIds(logs) == {};
    d
  }

  /** Logging one more entry shows up everywhere in the view: one more
      interaction, its row on top of the table, its point last in the chart,
      and the placeholder gone. */
  lemma ViewAfterAppend(logs: seq<InteractionLog>, log: InteractionLog)
    ensures var view := RenderDashboard(logs + [log]);
      && view.stats.totalInteractions == |logs| + 1
      && !view.showsNoLogsNotice
      && |view.table| > 0 && view.table[0] == Row(log)
      && |view.chart| > 0 && view.chart[|view.chart| - 1] == Plot(|view.chart|, log)
  {
    TableAfterAppend(logs, log);
    ChartShowsNewest(logs, log);
  }
}

=== FILE: app_properties.dfy ===
/** End-to-end behaviour of the application, stated across the store, the
    query turn and the analytics view: what the user sees after re-ingesting,
    resetting a conversation, clearing the library or asking a question. */
module AppProperties {
  import opened Types
  import opened Db
  import opened RagQuery
  import opened Analytics

  /** The interaction log only grows: every turn, successful or not, keeps
      the earlier entries as a prefix. */
  lemma LogIsAppendOnly(
    st: Store, sessionId: string, query: string, selector: LlmReply, generator: LlmReply,
    startTime: int, endTime: int, isoNow: string)
    ensures var logs := GetLogs(PerformRagQuery(st, sessionId, query, selector, generator, startTime, endTime, isoNow).store);
      |GetLogs(st)| <= |logs| <= |GetLogs(st)| + 1 && logs[..|GetLogs(st)|] == GetLogs(st)
  {
    if |GetArticles(st)| > 0 && selector.Replied? && generator.Replied? {
      QueryLogsOnce(st, sessionId, query, selector.text, generator.text, startTime, endTime, isoNow);
    }
  }

  /** After re-ingestion, answers cite only the new articles. */
  lemma ReingestionReplacesSources(
    st: Store, articles: seq<NewsArticle>, sessionId: string, query: string, selector: LlmReply, generator: LlmReply,
    startTime: int, endTime: int, isoNow: string)
    ensures var out := PerformRagQuery(SaveArticles(st, articles), sessionId, query, selector, generator, startTime, endTime, isoNow);
      out.result.Ok? ==> forall a :: a in out.result.value.sources ==> a in articles
  {
  }

  /** After the library is cleared, every question gets the canned answer
      and nothing is logged or saved. */
  lemma ClearedLibraryAnswersCanned(
    st: Store, sessionId: string, query: string, selector: LlmReply, generator: LlmReply,
    startTime: int, endTime: int, isoNow: string)
    ensures var cleared := SaveArticles(st, []);
      PerformRagQuery(cleared, sessionId, query, selector, generator, startTime, endTime, isoNow)
        == QueryOutcome(Ok(Answer(NoDocumentsMessage, [])), cleared, [])
  {
  }

  /** Clearing the library does not touch the log, so the analytics view is
      unchanged by it. */
  lemma ClearingLibraryKeepsAnalytics(st: Store)
    ensures RenderDashboard(GetLogs(SaveArticles(st, []))) == RenderDashboard(GetLogs(st))
  {
  }

  /** After a conversation is reset, the next turn under the same id starts
      fresh: the generator sees no history and the saved history is just the
      new question and answer. */
  lemma ResetConversationStartsFresh(
    st: Store, sessionId: string, query: string, selectorText: Option<string>, generatedText: Option<string>,
    startTime: int, endTime: int, isoNow: string)
    requires |GetArticles(st)| > 0
    ensures var reset := ClearSession(st, sessionId);
      var out := PerformRagQuery(reset, sessionId, query, Replied(selectorText), Replied(generatedText), startTime, endTime, isoNow);
      && out.requests[1].history == []
      && GetSession(out.store, sessionId) == Some(SessionData(
           sessionId,
           [ChatMessage(User, query, startTime), ChatMessage(Assistant, out.result.value.response, endTime)],
           endTime))
  {
    var reset := ClearSession(st, sessionId);
    GetAfterClear(st, sessionId);
    var out := PerformRagQuery(reset, sessionId, query, Replied(selectorText), Replied(generatedText), startTime, endTime, isoNow);
    QueryUpdatesSession(reset, sessionId, query, selectorText, generatedText, startTime, endTime, isoNow);
    var saved := GetSession(out.store, sessionId).value;
    assert saved.history == [ChatMessage(User, query, startTime), ChatMessage(Assistant, out.result.value.response, endTime)];
  }

  /** A successful turn shows up in the analytics view: one more interaction,
      its row on top of the table and its latency as the last chart point. */
  lemma AnsweredTurnAppearsInAnalytics(
    st: Store, sessionId: string, query: string, selectorText: Option<string>, generatedText: Option<string>,
    startTime: int, endTime: int, isoNow: string)
    requires |GetArticles(st)| > 0
    ensures var out := PerformRagQuery(st, sessionId, query, Replied(selectorText), Replied(generatedText), startTime, endTime, isoNow);
      var view := RenderDashboard(GetLogs(out.store));
      && view.stats.totalInteractions == |GetLogs(st)| + 1
      && view.table[0].query == query
      && view.table[0].sessionId == sessionId
      && view.table[0].latencyMs == endTime - startTime
      && view.chart[|view.chart| - 1].responseTime == endTime - startTime
  {
    var out := PerformRagQuery(st, sessionId, query, Replied(selectorText), Replied(generatedText), startTime, endTime, isoNow);
    QueryLogsOnce(st, sessionId, query, selectorText, generatedText, startTime, endTime, isoNow);
    var prev, logs := GetLogs(st), GetLogs(out.store);
    var last := logs[|logs| - 1];
    assert logs == prev + [last] by {
      assert logs == logs[..|prev|] + [last];
    }
    ViewAfterAppend(prev, last);
  }
}

=== FILE: db.dfy ===
/** The persistence layer (services/db.ts): three collections kept under
    fixed keys of a browser key-value store. The store is an immutable
    record with one slot per key; an absent key reads as an empty list. */
module Db {
  import opened Types

  /** One slot per storage key the core uses; `None` is a key never written. */
  datatype Store = Store(
    articles: Option<seq<NewsArticle>>,
    sessions: Option<seq<SessionData>>,
    logs: Option<seq<InteractionLog>>)

  /** A store in which no key has been written yet. */
  const EmptyStore := Store(None, None, None)

  /** Reading a key: the stored list, or the empty list when the key is absent. */
  function Load<T>(slot: Option<seq<T>>): (items: seq<T>)
    ensures slot.None? ==> items == []
    ensures slot.Some? ==> items == slot.value
  {
    match slot
    case None => []
    case Some(items) => items
  }

  /** Before anything is written, every collection reads as empty and no
      session is found. */
  lemma EmptyStoreReadsEmpty(id: string)
    ensures GetArticles(EmptyStore) == [] && GetLogs(EmptyStore) == []
    ensures GetSession(EmptyStore, id) == None
  {
  }

  // ---------------------------------------------------------------------
  // Articles: whole-collection replacement
  // ---------------------------------------------------------------------

  /** `getArticles()`: the last saved collection, or `[]` before any save. */
  function GetArticles(st: Store): (articles: seq<NewsArticle>)
    ensures st.articles.None? ==> articles == []
    ensures st.articles.Some? ==> articles == st.articles.value
  {
    Load(st.articles)
  }

  /** Replace the whole article collection; the other keys are not touched. */
  function SaveArticles(st: Store, articles: seq<NewsArticle>): (st': Store)
    ensures GetArticles(st') == articles
    ensures st'.sessions == st.sessions && st'.logs == st.logs
  {
    st.(articles := Some(articles))
  }

  // ---------------------------------------------------------------------
  // Logs: append-only
  // ---------------------------------------------------------------------

  /** `getLogs()`: every entry logged so far, oldest first. */
  function GetLogs(st: Store): (logs: seq<InteractionLog>)
    ensures st.logs.None? ==> logs == []
    ensures st.logs.Some? ==> logs == st.logs.value
  {
    Load(st.logs)
  }

  /** Append one entry to the log; the other keys are not touched. */
  function LogInteraction(st: Store, log: InteractionLog): (st': Store)
    ensures GetLogs(st') == GetLogs(st) + [log]
    ensures st'.articles == st.articles && st'.sessions == st.sessions
  {
    st.(logs := Some(GetLogs(st) + [log]))
  }

  // ---------------------------------------------------------------------
  // Sessions: find-first, upsert and delete by id
  // ---------------------------------------------------------------------

  /** The stored session list that `getSession`, `saveSession` and
      `clearSession` each read first. */
  function GetSessions(st: Store): (sessions: seq<SessionData>)
    ensures st.sessions.None? ==> sessions == []
    ensures st.sessions.Some? ==> sessions == st.sessions.value
  {
    Load(st.sessions)
  }

  ghost predicate HasSession(sessions: seq<SessionData>, id: string) {
    exists k :: 0 <= k < |sessions| && sessions[k].id == id
  }

  /** `k` is the position of the first session whose id is `id`. */
  ghost predicate IsFirstMatch(sessions: seq<SessionData>, id: string, k: int) {
    && 0 <= k < |sessions|
    && sessions[k].id == id
    && forall j :: 0 <= j < k ==> sessions[j].id != id
  }

  /** No id occurs twice. */
  ghost predicate DistinctIds(sessions: seq<SessionData>) {
    forall i, j :: 0 <= i < j < |sessions| ==> sessions[i].id != sessions[j].id
  }

  /** `Array.prototype.findIndex` by id: the first match, or -1 if there is none. */
  function FindSessionIndex(sessions: seq<SessionData>, id: string): (i: int)
    ensures i == -1 || IsFirstMatch(sessions, id, i)
    ensures i == -1 <==> !HasSession(sessions, id)
  {
    if |sessions| == 0 then -1
    else if sessions[0].id == id then 0
    else
      var i := FindSessionIndex(sessions[1..], id);
      assert forall k :: 1 <= k < |sessions| ==> sessions[k] == sessions[1..][k - 1];
      if i == -1 then -1 else i + 1
  }

  /** `getSession(id)`: the first stored session with that id, if any. */
  function GetSession(st: Store, id: string): (r: Option<SessionData>)
    ensures r.None? <==> !HasSession(GetSessions(st), id)
    ensures r.Some? ==> exists k :: IsFirstMatch(GetSessions(st), id, k) && GetSessions(st)[k] == r.value
  {
    var sessions := GetSessions(st);
    var i := FindSessionIndex(sessions, id);
    if i == -1 then None else Some(sessions[i])
  }

  /** The list update inside `saveSession`: overwrite the first entry with
      the same id in place, or append when there is none. */
  function UpsertSession(sessions: seq<SessionData>, s: SessionData): (r: seq<SessionData>)
    ensures HasSession(sessions, s.id) ==>
      && |r| == |sessions|
      && r[FindSessionIndex(sessions, s.id)] == s
      && forall k :: 0 <= k < |r| && k != FindSessionIndex(sessions, s.id) ==> r[k] == sessions[k]
    ensures !HasSession(sessions, s.id) ==> r == sessions + [s]
  {
    var i := FindSessionIndex(sessions, s.id);
    if i >= 0 then sessions[i := s] else sessions + [s]
  }

  /** `saveSession(s)`: upsert by id; the other keys are not touched. */
  function SaveSession(st: Store, s: SessionData): (st': Store)
    ensures GetSessions(st') == UpsertSession(GetSessions(st), s)
    ensures st'.articles == st.articles && st'.logs == st.logs
  {
    st.(sessions := Some(UpsertSession(GetSessions(st), s)))
  }

  /** The list update inside `clearSession`: keep, in order, every session
      whose id differs. */
  function RemoveSessions(sessions: seq<SessionData>, id: string): (r: seq<SessionData>)
    ensures |r| <= |sessions|
    ensures forall x :: x in r <==> x in sessions && x.id != id
  {
    if |sessions| == 0 then []
    else
      var rest := RemoveSessions(sessions[1..], id);
      assert forall x :: x in sessions <==> x == sessions[0] || x in sessions[1..];
      if sessions[0].id == id then rest else [sessions[0]] + rest
  }

  /** `clearSession(id)`: drop every session with that id; the other keys are not touched. */
  function ClearSession(st: Store, id: string): (st': Store)
    ensures GetSessions(st') == RemoveSessions(GetSessions(st), id)
    ensures st'.articles == st.articles && st'.logs == st.logs
  {
    st.(sessions := Some(RemoveSessions(GetSessions(st), id)))
  }

  // ---------------------------------------------------------------------
  // Properties of the session operations
  // ---------------------------------------------------------------------

  /** After `saveSession(s)`, `getSession(s.id)` returns `s`. */
  lemma GetAfterSave(st: Store, s: SessionData)
    ensures GetSession(SaveSession(st, s), s.id) == Some(s)
  {
    var before := GetSessions(st);
    var after := GetSessions(SaveSession(st, s));
    var i := FindSessionIndex(before, s.id);
    if i >= 0 {
      assert IsFirstMatch(after, s.id, i);
    } else {
      assert IsFirstMatch(after, s.id, |before|);
    }
  }

  /** Two session lists that match `id` at the same positions, where `b`
      may have extra entries that never match, find the same first match. */
  lemma SameMatches(a: seq<SessionData>, b: seq<SessionData>, id: string)
    requires |a| <= |b|
    requires forall k :: 0 <= k < |a| ==> (a[k].id == id <==> b[k].id == id)
    requires forall k :: |a| <= k < |b| ==> b[k].id != id
    ensures FindSessionIndex(a, id) == FindSessionIndex(b, id)
  {
    var i := FindSessionIndex(a, id);
    if i >= 0 {
      assert IsFirstMatch(b, id, i);
    }
  }

  /** Saving one session does not change what `getSession` finds for another id. */
  lemma SaveKeepsOtherSessions(st: Store, s: SessionData, id: string)
    requires id != s.id
    ensures GetSession(SaveSession(st, s), id) == GetSession(st, id)
  {
    var before := GetSessions(st);
    var after := GetSessions(SaveSession(st, s));
    if HasSession(before, s.id) {
      var i := FindSessionIndex(before, s.id);
      assert after == before[i := s];
      SameMatches(before, after, id);
    } else {
      assert after == before + [s];
      SameMatches(before, after, id);
    }
  }

  /** `saveSession` keeps stored ids distinct. */
  lemma SavePreservesDistinctIds(sessions: seq<SessionData>, s: SessionData)
    requires DistinctIds(sessions)
    ensures DistinctIds(UpsertSession(sessions, s))
  {
    var r := UpsertSession(sessions, s);
    if HasSession(sessions, s.id) {
      var i := FindSessionIndex(sessions, s.id);
      forall a, b | 0 <= a < b < |r|
        ensures r[a].id != r[b].id
      {
        if a == i {
          assert sessions[b].id != sessions[i].id;
        } else if b == i {
          assert sessions[a].id != sessions[i].id;
        }
      }
    }
  }

  /** After `clearSession(id)` nothing is found under that id. */
  lemma GetAfterClear(st: Store, id: string)
    ensures GetSession(ClearSession(st, id), id) == None
  {
  }

  /** Removing one id keeps the first match of every other id. */
  lemma {:induction false} RemoveKeepsOtherMatches(sessions: seq<SessionData>, id: string, other: string)
    requires other != id
    ensures FindSessionIndex(sessions, other) == -1 <==> FindSessionIndex(RemoveSessions(sessions, id), other) == -1
    ensures FindSessionIndex(sessions, other) >= 0 ==>
      RemoveSessions(sessions, id)[FindSessionIndex(RemoveSessions(sessions, id), other)]
        == sessions[FindSessionIndex(sessions, other)]
  {
    if |sessions| > 0 {
      RemoveKeepsOtherMatches(sessions[1..], id, other);
    }
  }

  /** Clearing one id does not change what `getSession` finds for another id. */
  lemma ClearKeepsOtherSessions(st: Store, id: string, other: string)
    requires other != id
    ensures GetSession(ClearSession(st, id), other) == GetSession(st, other)
  {
    RemoveKeepsOtherMatches(GetSessions(st), id, other);
  }

  /** Clearing keeps the other sessions in their original relative order:
      it commutes with concatenation. */
  lemma {:induction false} RemoveSessionsConcat(a: seq<SessionData>, b: seq<SessionData>, id: string)
    ensures RemoveSessions(a + b, id) == RemoveSessions(a, id) + RemoveSessions(b, id)
  {
    if |a| == 0 {
      assert a + b == b;
    } else {
      assert (a + b)[0] == a[0];
      assert (a + b)[1..] == a[1..] + b;
      RemoveSessionsConcat(a[1..], b, id);
    }
  }

  /** Clearing an id that is not stored changes nothing. */
  lemma {:induction false} RemoveAbsentSession(sessions: seq<SessionData>, id: string)
    requires !HasSession(sessions, id)
    ensures RemoveSessions(sessions, id) == sessions
  {
    if |sessions| > 0 {
      var rest := sessions[1..];
      assert !HasSession(rest, id) by {
        forall k | 0 <= k < |rest|
          ensures rest[k].id != id
        {
          assert rest[k] == sessions[k + 1];
        }
      }
      calc {
        RemoveSessions(sessions, id);
        == { assert sessions[0].id != id; }
        [sessions[0]] + RemoveSessions(rest, id);
        == { RemoveAbsentSession(rest, id); }
        [sessions[0]] + rest;
      }
      assert [sessions[0]] + rest == sessions;
    }
  }
}

=== FILE: gemini_service.dfy ===
/** One question-answering turn (services/geminiService.ts, `performRAGQuery`).
    The two calls to the language model become parameters: the reply the
    relevance selector gave and the reply the generator gave, each either
    some text (possibly absent) or a failed call. The clock readings and the
    ISO timestamp are parameters too. The turn is a pure function from the
    store and those inputs to the answer, the new store and the requests
    handed to the model. */
module RagQuery {
  import opened Types
  import opened JsBuiltins
  import opened Db

  /** The canned answer when no article has been ingested. */
  const NoDocumentsMessage := "No documents have been ingested yet. Please go to the Ingestion panel."

  /** The answer when the generator returns no text. */
  const FallbackResponse := "I'm sorry, I couldn't generate a response."

  /** How many of the latest chat turns the generator sees. */
  const HistoryTurns := 4

  /** What a call to the language model produced: text, possibly absent
      (`response.text` is optional), or a failure that throws. */
  datatype LlmReply = Replied(text: Option<string>) | CallFailed

  /** What the turn hands to the language model. The prompt wording around
      these values is not modelled. */
  datatype LlmRequest =
    | SelectRelevant(query: string, headlines: seq<string>)
    | Generate(query: string, context: seq<NewsArticle>, history: seq<ChatMessage>)

  datatype Answer = Answer(response: string, sources: seq<NewsArticle>)

  /** Which call threw; the error reaches the caller unchanged. */
  datatype QueryError = SelectionFailed | GenerationFailed

  datatype QueryOutcome = QueryOutcome(
    result: Result<Answer, QueryError>,
    store: Store,
    requests: seq<LlmRequest>)

  /** `text || ''`: an absent text reads as the empty string. */
  function TextOrEmpty(text: Option<string>): (t: string)
    ensures text.None? ==> t == ""
    ensures text.Some? ==> t == text.value
  {
    match text
    case None => ""
    case Some(t) => t
  }

  // ---------------------------------------------------------------------
  // Parsing the selector's reply
  // ---------------------------------------------------------------------

  /** One comma-separated token of the selector's reply: trimmed, read with
      `parseInt`, and kept only when it indexes an article. */
  function TokenId(token: string, count: nat): (id: Option<nat>)
    ensures id.Some? ==> id.value < count
  {
    match ParseInt(Trim(token))
    case NaN => None
    case Int(v) => if 0 <= v < count then Some(v as nat) else None
  }

  /** The ids of the tokens that pass, in token order, repeats kept. */
  function ValidIds(tokens: seq<string>, count: nat): (ids: seq<nat>)
    ensures |ids| <= |tokens|
    ensures forall k :: 0 <= k < |ids| ==> ids[k] < count
  {
    if |tokens| == 0 then []
    else
      var head := match TokenId(tokens[0], count) case None => [] case Some(id) => [id];
      head + ValidIds(tokens[1..], count)
  }

  lemma ConcatAssociative<T>(x: seq<T>, y: seq<T>, z: seq<T>)
    ensures x + (y + z) == (x + y) + z
  {
  }

  lemma {:induction false} ValidIdsConcat(a: seq<string>, b: seq<string>, count: nat)
    ensures ValidIds(a + b, count) == ValidIds(a, count) + ValidIds(b, count)
  {
    if |a| == 0 {
      assert a + b == b;
    } else {
      var head := match TokenId(a[0], count) case None => [] case Some(id) => [id];
      assert (a + b)[0] == a[0];
      assert (a + b)[1..] == a[1..] + b;
      var restA, idsB := ValidIds(a[1..], count), ValidIds(b, count);
      assert ValidIds(a + b, count) == head + ValidIds(a[1..] + b, count);
      ValidIdsConcat(a[1..], b, count);
      assert ValidIds(a, count) == head + restA;
      ConcatAssociative(head, restA, idsB);
    }
  }

  /** The selected article positions: split the reply on `,`, then keep the
      valid tokens. There is no cap on how many are kept and repeats stay. */
  function SelectedIds(reply: string, count: nat): (ids: seq<nat>)
    ensures forall k :: 0 <= k < |ids| ==> ids[k] < count
    ensures |ids| <= |Split(reply, ',')|
  {
    ValidIds(Split(reply, ','), count)
  }

  /** A reply without a comma is one token: it yields its id if valid and nothing otherwise. */
  lemma SelectedIdsOfToken(token: string, count: nat)
    requires ',' !in token
    ensures SelectedIds(token, count) == match TokenId(token, count) case None => [] case Some(id) => [id]
  {
    SplitNoSeparator(token, ',');
  }

  /** Reading the reply is left to right: the ids before a comma come first,
      then the ids after it. Together with `SelectedIdsOfToken` this says the
      result is the valid tokens in order, invalid ones dropped. */
  lemma SelectedIdsAtComma(a: string, b: string, count: nat)
    ensures SelectedIds(a + [','] + b, count) == SelectedIds(a, count) + SelectedIds(b, count)
  {
    SplitAtSeparator(a, b, ',');
    ValidIdsConcat(Split(a, ','), Split(b, ','), count);
  }

  /** An empty reply selects nothing. */
  lemma SelectedIdsOfEmpty(count: nat)
    ensures SelectedIds("", count) == []
  {
    SelectedIdsOfToken("", count);
    assert Trim("") == "";
    assert ParseInt("") == NaN;
  }

  /** A reply in the format the prompt asks for, `0, 12, 4`. */
  function RenderIds(ids: seq<nat>): string {
    if |ids| == 0 then ""
    else if |ids| == 1 then DecimalString(ids[0])
    else RenderIds(ids[..|ids| - 1]) + [','] + " " + DecimalString(ids[|ids| - 1])
  }

  /** A valid token: a number written in decimal, possibly after white space. */
  lemma TokenIdOfDecimal(ws: string, n: nat, count: nat)
    requires AllWhiteSpace(ws)
    requires n < count
    ensures TokenId(ws + DecimalString(n), count) == Some(n)
  {
    var d := DecimalString(n);
    assert ws + d + "" == ws + d;
    TrimPadded(ws, d, "");
    ParseIntDecimal(n);
  }

  /** A valid id written after a comma and a space adds exactly that id. */
  lemma SelectedIdsAppendOne(prefix: string, n: nat, count: nat)
    requires n < count
    ensures SelectedIds(prefix + [','] + " " + DecimalString(n), count) == SelectedIds(prefix, count) + [n]
  {
    var token := " " + DecimalString(n);
    SelectedIdsOfDecimal(" ", n, count);
    assert prefix + [','] + " " + DecimalString(n) == prefix + [','] + token;
    SelectedIdsAtComma(prefix, token, count);
  }

  /** A reply holding one valid number, possibly after white space, selects it. */
  lemma SelectedIdsOfDecimal(ws: string, n: nat, count: nat)
    requires AllWhiteSpace(ws)
    requires n < count
    ensures SelectedIds(ws + DecimalString(n), count) == [n]
  {
    var d := DecimalString(n);
    var token := ws + d;
    assert ',' !in token by {
      assert ',' !in ws by {
        assert forall i :: 0 <= i < |ws| ==> ws[i] != ',' by {
          assert !IsWhiteSpace(',');
        }
      }
      assert ',' !in d by {
        assert forall i :: 0 <= i < |d| ==> d[i] != ',';
      }
    }
    TokenIdOfDecimal(ws, n, count);
    SelectedIdsOfToken(token, count);
  }

  /** Whatever list of valid positions the selector writes in the requested
      format, including more than five and repeats, is read back exactly. */
  lemma {:induction false} SelectedIdsRoundTrip(ids: seq<nat>, count: nat)
    requires forall k :: 0 <= k < |ids| ==> ids[k] < count
    ensures SelectedIds(RenderIds(ids), count) == ids
  {
    if |ids| == 0 {
      SelectedIdsOfEmpty(count);
    } else if |ids| == 1 {
      SelectedIdsOfDecimal("", ids[0], count);
      assert "" + DecimalString(ids[0]) == DecimalString(ids[0]);
    } else {
      var init, last := ids[..|ids| - 1], ids[|ids| - 1];
      assert ids == init + [last];
      assert RenderIds(ids) == RenderIds(init) + [','] + " " + DecimalString(last);
      SelectedIdsRoundTrip(init, count);
      SelectedIdsAppendOne(RenderIds(init), last, count);
    }
  }

  /** Negative numbers are dropped, with or without white space before them. */
  lemma NegativeTokenDropped(ws: string, n: nat, count: nat)
    requires AllWhiteSpace(ws)
    requires n > 0
    ensures TokenId(ws + "-" + DecimalString(n), count) == None
  {
    var d := DecimalString(n);
    var t := "-" + d;
    assert Trim(ws + "-" + d) == t by {
      assert ws + "-" + d == ws + t + "";
      assert Trimmed(t) by {
        assert t[0] == '-' && t[|t| - 1] == d[|d| - 1];
      }
      TrimPadded(ws, t, "");
    }
    ParseIntNegative(n);
  }

  /** Numbers past the last article are dropped, with or without white
      space before them. */
  lemma OutOfRangeTokenDropped(ws: string, n: nat, count: nat)
    requires AllWhiteSpace(ws)
    requires n >= count
    ensures TokenId(ws + DecimalString(n), count) == None
  {
    assert ws + DecimalString(n) == ws + DecimalString(n) + "";
    TrimPadded(ws, DecimalString(n), "");
    ParseIntDecimal(n);
  }

  /** A token is dropped when, once trimmed and past an optional sign, it
      does not start with a digit; what follows does not matter. */
  lemma NonNumericTokenDropped(token: string, count: nat)
    requires |AfterSign(Trim(token))| == 0 || !IsDecimalDigit(AfterSign(Trim(token))[0])
    ensures TokenId(token, count) == None
  {
    ParseIntNeedsLeadingDigit("", Trim(token));
    assert "" + Trim(token) == Trim(token);
  }

  /** Echoing a headline's `ID: n` label instead of the bare number drops
      the token, even when `n` is a valid position. */
  lemma EchoedHeadlineIdDropped(ws: string, n: nat, count: nat)
    requires AllWhiteSpace(ws)
    ensures TokenId(ws + "ID: " + DecimalString(n), count) == None
  {
    var d := DecimalString(n);
    var core := "ID: " + d;
    var token := ws + "ID: " + d;
    assert Trim(token) == core by {
      assert token == ws + core + "";
      assert Trimmed(core) by {
        assert core[0] == 'I' && core[|core| - 1] == d[|d| - 1];
      }
      TrimPadded(ws, core, "");
    }
    assert AfterSign(core) == core && !IsDecimalDigit(core[0]) by {
      assert core[0] == 'I';
    }
    NonNumericTokenDropped(token, count);
  }

  // ---------------------------------------------------------------------
  // Sources, history window, response
  // ---------------------------------------------------------------------

  /** `selectedIds.map(id => articles[id])`. */
  function MapSources(articles: seq<NewsArticle>, ids: seq<nat>): (sources: seq<NewsArticle>)
    requires forall k :: 0 <= k < |ids| ==> ids[k] < |articles|
    ensures |sources| == |ids|
    ensures forall k :: 0 <= k < |ids| ==> sources[k] == articles[ids[k]]
  {
    if |ids| == 0 then [] else [articles[ids[0]]] + MapSources(articles, ids[1..])
  }

  /** The titles listed to the selector, position `i` being article id `i`. */
  function Headlines(articles: seq<NewsArticle>): (titles: seq<string>)
    ensures |titles| == |articles|
    ensures forall i :: 0 <= i < |articles| ==> titles[i] == articles[i].title
  {
    if |articles| == 0 then [] else [articles[0].title] + Headlines(articles[1..])
  }

  /** `session?.history || []`. */
  function PriorHistory(session: Option<SessionData>): (history: seq<ChatMessage>)
    ensures session.None? ==> history == []
    ensures session.Some? ==> history == session.value.history
  {
    match session
    case None => []
    case Some(s) => s.history
  }

  /** The turns the generator sees: the last four of the stored history. */
  function HistoryWindow(session: Option<SessionData>): (window: seq<ChatMessage>)
    ensures session.None? ==> window == []
    ensures |window| == if |PriorHistory(session)| < HistoryTurns then |PriorHistory(session)| else HistoryTurns
    ensures PriorHistory(session) == PriorHistory(session)[..|PriorHistory(session)| - |window|] + window
  {
    SliceLast(PriorHistory(session), HistoryTurns)
  }

  /** `response.text || FallbackResponse`: an absent or empty text is replaced. */
  function FinalResponse(text: Option<string>): (response: string)
    ensures |response| > 0
    ensures text.Some? && text.value != "" ==> response == text.value
    ensures text.None? || text.value == "" ==> response == FallbackResponse
  {
    match text
    case Some(t) => if t == "" then FallbackResponse else t
    case None => FallbackResponse
  }

  // ---------------------------------------------------------------------
  // The turn
  // ---------------------------------------------------------------------

  /** The log entry a successful turn appends. */
  function LogEntry(sessionId: string, query: string, response: string, startTime: int, endTime: int, isoNow: string): (log: InteractionLog)
    ensures log.timestamp == isoNow && log.sessionId == sessionId
    ensures log.userQuery == query && log.llmResponse == response
    ensures log.responseTimeMs == endTime - startTime
    ensures log.tokens.None?
  {
    InteractionLog(isoNow, sessionId, query, response, endTime - startTime, None)
  }

  /** The session a successful turn saves: the prior history, the question at
      the start time and the answer at the end time. */
  function NextSession(session: Option<SessionData>, sessionId: string, query: string, response: string, startTime: int, endTime: int): (next: SessionData)
    ensures next.id == sessionId && next.lastUsed == endTime
    ensures |next.history| == |PriorHistory(session)| + 2
    ensures next.history[..|PriorHistory(session)|] == PriorHistory(session)
    ensures next.history[|PriorHistory(session)|] == ChatMessage(User, query, startTime)
    ensures next.history[|PriorHistory(session)| + 1] == ChatMessage(Assistant, response, endTime)
  {
    SessionData(
      sessionId,
      PriorHistory(session) + [ChatMessage(User, query, startTime), ChatMessage(Assistant, response, endTime)],
      endTime)
  }

  /** `performRAGQuery(sessionId, query)`. `startTime` and `endTime` are the
      two `Date.now()` readings and `isoNow` the log's ISO timestamp. */
  function PerformRagQuery(
    st: Store, sessionId: string, query: string,
    selector: LlmReply, generator: LlmReply,
    startTime: int, endTime: int, isoNow: string): (out: QueryOutcome)
    ensures |GetArticles(st)| == 0 ==> out == QueryOutcome(Ok(Answer(NoDocumentsMessage, [])), st, [])
    ensures out.result.Err? ==> out.store == st
    ensures GetArticles(out.store) == GetArticles(st)
    ensures out.result.Ok? ==> forall a :: a in out.result.value.sources ==> a in GetArticles(st)
  {
    var articles := GetArticles(st);
    if |articles| == 0 then
      QueryOutcome(Ok(Answer(NoDocumentsMessage, [])), st, [])
    else
      var selection := SelectRelevant(query, Headlines(articles));
      match selector
      case CallFailed => QueryOutcome(Err(SelectionFailed), st, [selection])
      case Replied(selectorText) =>
        var ids := SelectedIds(TextOrEmpty(selectorText), |articles|);
        var sources := MapSources(articles, ids);
        var session := GetSession(st, sessionId);
        var generation := Generate(query, sources, HistoryWindow(session));
        match generator
        case CallFailed => QueryOutcome(Err(GenerationFailed), st, [selection, generation])
        case Replied(generatedText) =>
          var response := FinalResponse(generatedText);
          var logged := LogInteraction(st, LogEntry(sessionId, query, response, startTime, endTime, isoNow));
          var saved := SaveSession(logged, NextSession(session, sessionId, query, response, startTime, endTime));
          QueryOutcome(Ok(Answer(response, sources)), saved, [selection, generation])
  }

  // ---------------------------------------------------------------------
  // Properties of the turn
  // ---------------------------------------------------------------------

  /** The sources are exactly the articles at the selected positions, in the
      order the selector named them. */
  lemma QuerySources(
    st: Store, sessionId: string, query: string, selectorText: Option<string>, generator: LlmReply,
    startTime: int, endTime: int, isoNow: string)
    requires |GetArticles(st)| > 0
    requires generator.Replied?
    ensures var out := PerformRagQuery(st, sessionId, query, Replied(selectorText), generator, startTime, endTime, isoNow);
      var ids := SelectedIds(TextOrEmpty(selectorText), |GetArticles(st)|);
      && out.result.Ok?
      && |out.result.value.sources| == |ids|
      && forall k :: 0 <= k < |ids| ==> out.result.value.sources[k] == GetArticles(st)[ids[k]]
  {
  }

  /** An absent or empty selector reply yields no sources. */
  lemma QueryEmptySelection(
    st: Store, sessionId: string, query: string, selectorText: Option<string>, generator: LlmReply,
    startTime: int, endTime: int, isoNow: string)
    requires selectorText.None? || selectorText == Some("")
    requires generator.Replied?
    ensures PerformRagQuery(st, sessionId, query, Replied(selectorText), generator, startTime, endTime, isoNow).result.value.sources == []
  {
    SelectedIdsOfEmpty(|GetArticles(st)|);
  }

  /** The response is the generated text, or the fallback when it is absent or empty. */
  lemma QueryResponse(
    st: Store, sessionId: string, query: string, selectorText: Option<string>, generatedText: Option<string>,
    startTime: int, endTime: int, isoNow: string)
    requires |GetArticles(st)| > 0
    ensures var r := PerformRagQuery(st, sessionId, query, Replied(selectorText), Replied(generatedText), startTime, endTime, isoNow).result;
      && r.Ok?
      && (generatedText.None? || generatedText == Some("") ==> r.value.response == FallbackResponse)
      && (generatedText.Some? && generatedText.value != "" ==> r.value.response == generatedText.value)
  {
  }

  /** The generator sees the last four turns of the stored session, none when
      there is no session, together with the query and the sources. */
  lemma QueryHistoryWindow(
    st: Store, sessionId: string, query: string, selectorText: Option<string>, generator: LlmReply,
    startTime: int, endTime: int, isoNow: string)
    requires |GetArticles(st)| > 0
    ensures var out := PerformRagQuery(st, sessionId, query, Replied(selectorText), generator, startTime, endTime, isoNow);
      var prior := PriorHistory(GetSession(st, sessionId));
      && |out.requests| == 2
      && out.requests[1].Generate?
      && out.requests[1].query == query
      && (GetSession(st, sessionId).None? ==> out.requests[1].history == [])
      && |out.requests[1].history| == (if |prior| < 4 then |prior| else 4)
      && prior == prior[..|prior| - |out.requests[1].history|] + out.requests[1].history
      && (generator.Replied? ==> out.requests[1].context == out.result.value.sources)
  {
    var articles := GetArticles(st);
    var session := GetSession(st, sessionId);
    var sources := MapSources(articles, SelectedIds(TextOrEmpty(selectorText), |articles|));
    var generation := Generate(query, sources, HistoryWindow(session));
    var out := PerformRagQuery(st, sessionId, query, Replied(selectorText), generator, startTime, endTime, isoNow);
    assert out.requests == [SelectRelevant(query, Headlines(articles)), generation];
    assert generator.Replied? ==> out.result.value.sources == sources;
  }

  /** A successful turn appends exactly one log entry, describing the turn. */
  lemma QueryLogsOnce(
    st: Store, sessionId: string, query: string, selectorText: Option<string>, generatedText: Option<string>,
    startTime: int, endTime: int, isoNow: string)
    requires |GetArticles(st)| > 0
    ensures var out := PerformRagQuery(st, sessionId, query, Replied(selectorText), Replied(generatedText), startTime, endTime, isoNow);
      var logs := GetLogs(out.store);
      && |logs| == |GetLogs(st)| + 1
      && logs[..|GetLogs(st)|] == GetLogs(st)
      && logs[|logs| - 1].sessionId == sessionId
      && logs[|logs| - 1].userQuery == query
      && logs[|logs| - 1].llmResponse == out.result.value.response
      && logs[|logs| - 1].responseTimeMs == endTime - startTime
      && logs[|logs| - 1].timestamp == isoNow
  {
    var out := PerformRagQuery(st, sessionId, query, Replied(selectorText), Replied(generatedText), startTime, endTime, isoNow);
    assert GetLogs(out.store) == GetLogs(st) + [LogEntry(sessionId, query, out.result.value.response, startTime, endTime, isoNow)];
  }

  /** A successful turn stores the session under its id with the old history
      followed by the question and the answer, stamped with the end time. */
  lemma QueryUpdatesSession(
    st: Store, sessionId: string, query: string, selectorText: Option<string>, generatedText: Option<string>,
    startTime: int, endTime: int, isoNow: string)
    requires |GetArticles(st)| > 0
    ensures var out := PerformRagQuery(st, sessionId, query, Replied(selectorText), Replied(generatedText), startTime, endTime, isoNow);
      var prior := PriorHistory(GetSession(st, sessionId));
      var saved := GetSession(out.store, sessionId);
      && saved.Some?
      && saved.value.id == sessionId
      && saved.value.lastUsed == endTime
      && |saved.value.history| == |prior| + 2
      && saved.value.history[..|prior|] == prior
      && saved.value.history[|prior|] == ChatMessage(User, query, startTime)
      && saved.value.history[|prior| + 1] == ChatMessage(Assistant, out.result.value.response, endTime)
  {
    var out := PerformRagQuery(st, sessionId, query, Replied(selectorText), Replied(generatedText), startTime, endTime, isoNow);
    var session := GetSession(st, sessionId);
    var logged := LogInteraction(st, LogEntry(sessionId, query, out.result.value.response, startTime, endTime, isoNow));
    assert GetSession(logged, sessionId) == session;
    var next := NextSession(session, sessionId, query, out.result.value.response, startTime, endTime);
    GetAfterSave(logged, next);
    assert next.history[..|PriorHistory(session)|] == PriorHistory(session);
  }

  /** A turn touches no other session. */
  lemma QueryKeepsOtherSessions(
    st: Store, sessionId: string, query: string, selector: LlmReply, generator: LlmReply,
    startTime: int, endTime: int, isoNow: string, other: string)
    requires other != sessionId
    ensures GetSession(PerformRagQuery(st, sessionId, query, selector, generator, startTime, endTime, isoNow).store, other)
         == GetSession(st, other)
  {
    var articles := GetArticles(st);
    if |articles| > 0 && selector.Replied? && generator.Replied? {
      var out := PerformRagQuery(st, sessionId, query, selector, generator, startTime, endTime, isoNow);
      var session := GetSession(st, sessionId);
      var logged := LogInteraction(st, LogEntry(sessionId, query, out.result.value.response, startTime, endTime, isoNow));
      assert GetSession(logged, other) == GetSession(st, other);
      SaveKeepsOtherSessions(logged, NextSession(session, sessionId, query, out.result.value.response, startTime, endTime), other);
    }
  }
}

=== FILE: js_builtins.dfy ===
/** The JavaScript built-ins whose exact behaviour the core depends on:
    `String.prototype.trim`, `String.prototype.split` on one character,
    `parseInt` without a radix, `Array.prototype.slice(-k)`,
    `Array.prototype.reverse` and the UTF-16 `length` of a string. */
module JsBuiltins {

  // ---------------------------------------------------------------------
  // Runs of characters at either end of a string
  // ---------------------------------------------------------------------

  /** Length of the longest prefix of `s` whose characters all satisfy `p`. */
  function LeadingRun(s: string, p: char -> bool): (k: nat)
    ensures k <= |s|
    ensures forall i :: 0 <= i < k ==> p(s[i])
    ensures k < |s| ==> !p(s[k])
  {
    if |s| == 0 || !p(s[0]) then 0 else 1 + LeadingRun(s[1..], p)
  }

  /** Start of the longest suffix of `s` whose characters all satisfy `p`. */
  function TrailingRunStart(s: string, p: char -> bool): (k: nat)
    ensures k <= |s|
    ensures forall i :: k <= i < |s| ==> p(s[i])
    ensures k > 0 ==> !p(s[k - 1])
  {
    if |s| == 0 || !p(s[|s| - 1]) then |s| else TrailingRunStart(s[..|s| - 1], p)
  }

  /** The three facts LeadingRun ensures determine it. */
  lemma LeadingRunUnique(s: string, p: char -> bool, k: nat)
    requires k <= |s|
    requires forall i :: 0 <= i < k ==> p(s[i])
    requires k < |s| ==> !p(s[k])
    ensures LeadingRun(s, p) == k
  {
  }

  /** The three facts TrailingRunStart ensures determine it. */
  lemma TrailingRunStartUnique(s: string, p: char -> bool, k: nat)
    requires k <= |s|
    requires forall i :: k <= i < |s| ==> p(s[i])
    requires k > 0 ==> !p(s[k - 1])
    ensures TrailingRunStart(s, p) == k
  {
  }

  // ---------------------------------------------------------------------
  // trim()
  // ---------------------------------------------------------------------

  /** ECMAScript WhiteSpace and LineTerminator code points: what `trim`
      removes and what `parseInt` skips before the number. */
  predicate IsWhiteSpace(c: char) {
    var n := c as int;
    n == 0x09 || n == 0x0A || n == 0x0B || n == 0x0C || n == 0x0D || n == 0x20
    || n == 0xA0 || n == 0x1680 || (0x2000 <= n <= 0x200A) || n == 0x2028
    || n == 0x2029 || n == 0x202F || n == 0x205F || n == 0x3000 || n == 0xFEFF
  }

  ghost predicate AllWhiteSpace(s: string) {
    forall i :: 0 <= i < |s| ==> IsWhiteSpace(s[i])
  }

  /** A string that `trim` leaves alone: empty, or no white space at either end. */
  ghost predicate Trimmed(s: string) {
    |s| > 0 ==> !IsWhiteSpace(s[0]) && !IsWhiteSpace(s[|s| - 1])
  }

  /** `String.prototype.trim`. */
  function Trim(s: string): (r: string)
    ensures |r| <= |s|
    ensures Trimmed(r)
  {
    var t := s[LeadingRun(s, IsWhiteSpace)..];
    t[..TrailingRunStart(t, IsWhiteSpace)]
  }

  /** Every string is white space, a trimmed core and white space, and
      `trim` returns exactly that core; with `Trim`'s own contract this
      pins `trim` down completely. */
  lemma TrimPadded(pre: string, core: string, post: string)
    requires AllWhiteSpace(pre) && AllWhiteSpace(post) && Trimmed(core)
    ensures Trim(pre + core + post) == core
  {
    var s := pre + core + post;
    if |core| == 0 {
      LeadingRunUnique(s, IsWhiteSpace, |s|);
      assert s[|s|..] == "";
    } else {
      LeadingRunUnique(s, IsWhiteSpace, |pre|);
      var t := s[|pre|..];
      assert t == core + post;
      TrailingRunStartUnique(t, IsWhiteSpace, |core|);
      assert t[..|core|] == core;
    }
  }

  // ---------------------------------------------------------------------
  // split(sep) on a single character
  // ---------------------------------------------------------------------

  /** Glue pieces back together with `sep` between neighbours (`Array.prototype.join`). */
  function Join(parts: seq<string>, sep: char): string
    requires |parts| >= 1
  {
    if |parts| == 1 then parts[0] else parts[0] + [sep] + Join(parts[1..], sep)
  }

  /** `String.prototype.split(sep)` for a one-character separator: the text
      between separators, empty pieces included, so `""` splits into `[""]`. */
  function Split(s: string, sep: char): (parts: seq<string>)
    ensures |parts| >= 1
    ensures forall i :: 0 <= i < |parts| ==> sep !in parts[i]
    ensures Join(parts, sep) == s
  {
    if |s| == 0 then [""]
    else
      var rest := Split(s[1..], sep);
      if s[0] == sep then
        assert [s[0]] + s[1..] == s;
        [""] + rest
      else
        var parts := [[s[0]] + rest[0]] + rest[1..];
        assert parts[1..] == rest[1..];
        assert [s[0]] + s[1..] == s;
        parts
  }

  /** Text without the separator is one piece. */
  lemma {:induction false} SplitNoSeparator(s: string, sep: char)
    requires sep !in s
    ensures Split(s, sep) == [s]
  {
    if |s| > 0 {
      SplitNoSeparator(s[1..], sep);
      assert [s[0]] + s[1..] == s;
    }
  }

  /** Splitting distributes over a separator: the pieces of `a` come first, in
      order, then the pieces of `b`. */
  lemma {:induction false} SplitAtSeparator(a: string, b: string, sep: char)
    ensures Split(a + [sep] + b, sep) == Split(a, sep) + Split(b, sep)
  {
    var s := a + [sep] + b;
    if |a| == 0 {
      assert s[1..] == b;
    } else {
      assert s[1..] == a[1..] + [sep] + b;
      SplitAtSeparator(a[1..], b, sep);
    }
  }

  /** `split` inverts `join` when no piece contains the separator. */
  lemma {:induction false} SplitJoin(parts: seq<string>, sep: char)
    requires |parts| >= 1
    requires forall i :: 0 <= i < |parts| ==> sep !in parts[i]
    ensures Split(Join(parts, sep), sep) == parts
  {
    SplitNoSeparator(parts[0], sep);
    if |parts| > 1 {
      SplitJoin(parts[1..], sep);
      SplitAtSeparator(parts[0], Join(parts[1..], sep), sep);
      assert [parts[0]] + parts[1..] == parts;
    }
  }

  // ---------------------------------------------------------------------
  // parseInt(s) with no radix argument
  // ---------------------------------------------------------------------

  /** A number `parseInt` can produce: NaN or an integer. The source's
      result is a double, which rounds magnitudes beyond 2^53 and can be
      `-0`; neither distinction is visible to the core, which only compares
      the number with 0 and an array length and then indexes with it. */
  datatype ParsedInt = NaN | Int(value: int)

  predicate IsDecimalDigit(c: char) {
    '0' <= c <= '9'
  }

  predicate IsHexDigit(c: char) {
    IsDecimalDigit(c) || 'a' <= c <= 'f' || 'A' <= c <= 'F'
  }

  /** Is `c` a digit of `radix` (16 or 10)? */
  predicate IsDigitOf(radix: nat, c: char) {
    if radix == 16 then IsHexDigit(c) else IsDecimalDigit(c)
  }

  /** Length of the longest run of `radix` digits at the start of `digits`. */
  function DigitRun(digits: string, radix: nat): (k: nat)
    ensures k <= |digits|
    ensures forall i :: 0 <= i < k ==> IsDigitOf(radix, digits[i])
    ensures k < |digits| ==> !IsDigitOf(radix, digits[k])
  {
    LeadingRun(digits, c => IsDigitOf(radix, c))
  }

  /** The three facts DigitRun ensures determine it. */
  lemma DigitRunUnique(digits: string, radix: nat, k: nat)
    requires k <= |digits|
    requires forall i :: 0 <= i < k ==> IsDigitOf(radix, digits[i])
    requires k < |digits| ==> !IsDigitOf(radix, digits[k])
    ensures DigitRun(digits, radix) == k
  {
    LeadingRunUnique(digits, c => IsDigitOf(radix, c), k);
  }

  function DigitValue(c: char): (d: nat)
    requires IsHexDigit(c)
    ensures d < 16
    ensures IsDecimalDigit(c) ==> d < 10
  {
    if IsDecimalDigit(c) then (c - '0') as nat
    else if 'a' <= c <= 'f' then (c - 'a') as nat + 10
    else (c - 'A') as nat + 10
  }

  /** The value of a digit string, most significant digit first. */
  function DigitsValue(ds: string, radix: nat): nat
    requires forall i :: 0 <= i < |ds| ==> IsHexDigit(ds[i])
  {
    if |ds| == 0 then 0
    else
      assert forall i :: 0 <= i < |ds| - 1 ==> ds[..|ds| - 1][i] == ds[i];
      DigitsValue(ds[..|ds| - 1], radix) * radix + DigitValue(ds[|ds| - 1])
  }

  /** `parseInt(s)`: skip leading white space, read an optional sign, switch
      to base 16 after a `0x`/`0X` prefix, then read the longest run of digits
      of the base; NaN when that run is empty. Whatever follows the run is
      ignored. */
  function ParseInt(s: string): (r: ParsedInt)
    ensures (forall i :: 0 <= i < |s| ==> !IsDecimalDigit(s[i])) ==> r == NaN
    ensures var body := AfterSign(s[LeadingRun(s, IsWhiteSpace)..]);
      (|body| == 0 || !IsDecimalDigit(body[0])) ==> r == NaN
  {
    var w := LeadingRun(s, IsWhiteSpace);
    assert forall i :: 0 <= i < |s[w..]| ==> s[w..][i] == s[w + i];
    ParseSigned(s[w..])
  }

  /** The text after an optional leading `-` or `+`. */
  function AfterSign(t: string): string {
    if |t| > 0 && (t[0] == '-' || t[0] == '+') then t[1..] else t
  }

  /** Does the text start with the `0x`/`0X` prefix that switches to base 16? */
  predicate HasHexPrefix(body: string) {
    |body| >= 2 && body[0] == '0' && (body[1] == 'x' || body[1] == 'X')
  }

  /** `parseInt` once the leading white space is gone: an optional sign,
      then the unsigned number. A number is read exactly when the text after
      the sign starts with a digit, and (after `0x`) a hex digit follows the
      prefix; a minus sign makes it non-positive. */
  function ParseSigned(t: string): (r: ParsedInt)
    ensures (forall i :: 0 <= i < |t| ==> !IsDecimalDigit(t[i])) ==> r == NaN
    ensures var body := AfterSign(t);
      (|body| == 0 || !IsDecimalDigit(body[0])) ==> r == NaN
    ensures var body := AfterSign(t);
      !HasHexPrefix(body) ==> (r.NaN? <==> |body| == 0 || !IsDecimalDigit(body[0]))
    ensures var body := AfterSign(t);
      HasHexPrefix(body) ==> (r.NaN? <==> |body| == 2 || !IsHexDigit(body[2]))
    ensures r.Int? && |t| > 0 && t[0] == '-' ==> r.value <= 0
    ensures r.Int? && !(|t| > 0 && t[0] == '-') ==> r.value >= 0
  {
    assert forall i :: 0 <= i < |t| - 1 ==> t[1..][i] == t[i + 1];
    var magnitude := ParseUnsigned(AfterSign(t));
    if |t| > 0 && t[0] == '-' then Negate(magnitude) else magnitude
  }

  function Negate(r: ParsedInt): ParsedInt {
    match r
    case NaN => NaN
    case Int(v) => Int(-v)
  }

  /** The number after the sign: hexadecimal after `0x` or `0X`, decimal otherwise. */
  function ParseUnsigned(body: string): (r: ParsedInt)
    ensures (forall i :: 0 <= i < |body| ==> !IsDecimalDigit(body[i])) ==> r == NaN
    ensures (|body| == 0 || !IsDecimalDigit(body[0])) ==> r == NaN
    ensures !HasHexPrefix(body) ==> (r.NaN? <==> |body| == 0 || !IsDecimalDigit(body[0]))
    ensures HasHexPrefix(body) ==> (r.NaN? <==> |body| == 2 || !IsHexDigit(body[2]))
    ensures r.Int? ==> r.value >= 0
  {
    if HasHexPrefix(body) then ParseDigits(body[2..], 16)
    else ParseDigits(body, 10)
  }

  /** The value of the longest leading run of `radix` digits; NaN when it is empty. */
  function ParseDigits(digits: string, radix: nat): (r: ParsedInt)
    ensures radix == 10 && (forall i :: 0 <= i < |digits| ==> !IsDecimalDigit(digits[i])) ==> r == NaN
    ensures r.NaN? <==> |digits| == 0 || !IsDigitOf(radix, digits[0])
    ensures r.Int? ==> r.value >= 0
  {
    var k := DigitRun(digits, radix);
    if k == 0 then NaN
    else
      assert forall i :: 0 <= i < k ==> digits[..k][i] == digits[i];
      Int(DigitsValue(digits[..k], radix))
  }

  /** Once `DigitRun` is known, `ParseDigits` is the value of that run. */
  lemma ParseDigitsRun(digits: string, radix: nat, k: nat)
    requires 0 < k <= |digits|
    requires forall i :: 0 <= i < k ==> IsDigitOf(radix, digits[i])
    requires k < |digits| ==> !IsDigitOf(radix, digits[k])
    ensures forall i :: 0 <= i < k ==> IsHexDigit(digits[..k][i])
    ensures ParseDigits(digits, radix) == Int(DigitsValue(digits[..k], radix))
  {
    DigitRunUnique(digits, radix, k);
  }

  /** `parseInt` gives NaN when, after the white space and an optional sign,
      the text does not start with a decimal digit: `"ID: 3"`, `"[3]"` and
      `"- 3"` all read as NaN, whatever follows. */
  lemma ParseIntNeedsLeadingDigit(ws: string, t: string)
    requires AllWhiteSpace(ws)
    requires |t| > 0 ==> !IsWhiteSpace(t[0])
    requires |AfterSign(t)| == 0 || !IsDecimalDigit(AfterSign(t)[0])
    ensures ParseInt(ws + t) == NaN
  {
    ParseIntSkipsWhiteSpace(ws, t);
    ParseIntNoWhiteSpace(t);
  }

  /** Text that does not start with white space is parsed from its first character. */
  lemma ParseIntNoWhiteSpace(s: string)
    requires |s| > 0 ==> !IsWhiteSpace(s[0])
    ensures ParseInt(s) == ParseSigned(s)
  {
    LeadingRunUnique(s, IsWhiteSpace, 0);
    assert s[0..] == s;
  }

  function DigitChar(d: nat): (c: char)
    requires d < 10
    ensures IsDecimalDigit(c) && DigitValue(c) == d
  {
    ('0' as int + d) as char
  }

  /** The plain positional decimal digits of a natural number, as `String(n)`
      writes them for an integer-valued Number below 10^21. */
  function DecimalString(n: nat): (r: string)
    ensures |r| >= 1
    ensures forall i :: 0 <= i < |r| ==> IsDecimalDigit(r[i])
    ensures r[0] == '0' ==> |r| == 1
  {
    if n < 10 then [DigitChar(n)] else DecimalString(n / 10) + [DigitChar(n % 10)]
  }

  lemma {:induction false} DecimalStringValue(n: nat)
    ensures DigitsValue(DecimalString(n), 10) == n
  {
    var r := DecimalString(n);
    if n >= 10 {
      DecimalStringValue(n / 10);
      assert r[..|r| - 1] == DecimalString(n / 10);
    }
  }

  /** The unsigned reading of what `DecimalString` wrote, followed by anything
      that does not continue the number. */
  lemma ParseUnsignedDecimal(n: nat, rest: string)
    requires |rest| > 0 ==> !IsDecimalDigit(rest[0])
    requires n == 0 && |rest| > 0 ==> rest[0] != 'x' && rest[0] != 'X'
    ensures ParseUnsigned(DecimalString(n) + rest) == Int(n)
  {
    var d := DecimalString(n);
    var s := d + rest;
    assert !HasHexPrefix(s) by {
      assert s[0] == d[0];
      if |s| >= 2 && s[0] == '0' {
        assert |d| == 1;
        assert s[1] == rest[0];
      }
    }
    assert ParseDigits(s, 10) == Int(DigitsValue(d, 10)) by {
      assert forall i :: 0 <= i < |d| ==> s[i] == d[i];
      assert |d| < |s| ==> s[|d|] == rest[0];
      ParseDigitsRun(s, 10, |d|);
      assert s[..|d|] == d;
    }
    DecimalStringValue(n);
  }

  /** `parseInt` reads back what `DecimalString` wrote, followed by anything
      that does not continue the number (for instance `"12abc"` or `"3.5"`). */
  lemma ParseIntDecimalPrefix(n: nat, rest: string)
    requires |rest| > 0 ==> !IsDecimalDigit(rest[0])
    requires n == 0 && |rest| > 0 ==> rest[0] != 'x' && rest[0] != 'X'
    ensures ParseInt(DecimalString(n) + rest) == Int(n)
  {
    var s := DecimalString(n) + rest;
    assert s[0] == DecimalString(n)[0];
    ParseIntNoWhiteSpace(s);
    assert ParseSigned(s) == ParseUnsigned(s);
    ParseUnsignedDecimal(n, rest);
  }

  /** `parseInt` reads the plain decimal digits of `n` back as `n`. */
  lemma ParseIntDecimal(n: nat)
    ensures ParseInt(DecimalString(n)) == Int(n)
  {
    ParseIntDecimalPrefix(n, "");
    assert DecimalString(n) + "" == DecimalString(n);
  }

  /** A minus sign before the plain decimal digits of `n` reads as `-n`. */
  lemma ParseIntNegative(n: nat)
    ensures ParseInt("-" + DecimalString(n)) == Int(-(n as int))
  {
    var d := DecimalString(n);
    var s := "-" + d;
    assert ParseUnsigned(d) == Int(n) by {
      ParseUnsignedDecimal(n, "");
      assert d + "" == d;
    }
    assert ParseSigned(s) == Negate(Int(n)) by {
      assert s[0] == '-' && AfterSign(s) == d;
    }
    ParseIntNoWhiteSpace(s);
  }

  /** With no radix, a `0x` prefix switches `parseInt` to base 16. */
  lemma ParseIntHex(h: string)
    requires |h| > 0
    requires forall i :: 0 <= i < |h| ==> IsHexDigit(h[i])
    ensures ParseInt("0x" + h) == Int(DigitsValue(h, 16))
  {
    var s := "0x" + h;
    assert s[0] == '0' && s[1] == 'x' && s[2..] == h;
    ParseIntNoWhiteSpace(s);
    assert ParseSigned(s) == ParseUnsigned(s);
    assert ParseUnsigned(s) == ParseDigits(h, 16);
    ParseDigitsRun(h, 16, |h|);
    assert h[..|h|] == h;
  }

  /** Leading white space never changes what `parseInt` reads. */
  lemma ParseIntSkipsWhiteSpace(ws: string, s: string)
    requires AllWhiteSpace(ws)
    ensures ParseInt(ws + s) == ParseInt(s)
  {
    var k := LeadingRun(s, IsWhiteSpace);
    LeadingRunUnique(ws + s, IsWhiteSpace, |ws| + k);
    assert (ws + s)[|ws| + k..] == s[k..];
    assert ParseInt(ws + s) == ParseSigned(s[k..]);
  }

  // ---------------------------------------------------------------------
  // Arrays
  // ---------------------------------------------------------------------

  /** `Array.prototype.slice(-k)`: the last `k` elements, or all of them when
      there are fewer. `-0` is `0`, so `slice(-0)` is `slice(0)`: the whole
      array. */
  function SliceLast<T>(s: seq<T>, k: nat): (r: seq<T>)
    ensures |r| == if k == 0 || |s| < k then |s| else k
    ensures forall i :: 0 <= i < |r| ==> r[i] == s[|s| - |r| + i]
  {
    if k == 0 || |s| <= k then s else s[|s| - k..]
  }

  /** What `slice(-k)` drops and what it keeps make up the whole array. */
  lemma SliceLastIsSuffix<T>(s: seq<T>, k: nat)
    ensures s == s[..|s| - |SliceLast(s, k)|] + SliceLast(s, k)
  {
    var r := SliceLast(s, k);
    assert r == s[|s| - |r|..];
  }

  /** `Array.prototype.reverse`. */
  function Reverse<T>(s: seq<T>): (r: seq<T>)
    ensures |r| == |s|
    ensures forall i :: 0 <= i < |s| ==> r[i] == s[|s| - 1 - i]
  {
    if |s| == 0 then [] else [s[|s| - 1]] + Reverse(s[..|s| - 1])
  }

  /** `slice(-k).reverse()` lists the last `k` elements newest first. */
  lemma SliceLastReversed<T>(s: seq<T>, k: nat)
    ensures forall i :: 0 <= i < |Reverse(SliceLast(s, k))| ==> Reverse(SliceLast(s, k))[i] == s[|s| - 1 - i]
  {
    var w := SliceLast(s, k);
    var r := Reverse(w);
    forall i | 0 <= i < |r|
      ensures r[i] == s[|s| - 1 - i]
    {
      assert r[i] == w[|w| - 1 - i];
      assert w[|w| - 1 - i] == s[|s| - |w| + (|w| - 1 - i)];
    }
  }

  /** Reversing twice gives the original back. */
  lemma ReverseReverse<T>(s: seq<T>)
    ensures Reverse(Reverse(s)) == s
  {
  }

  // ---------------------------------------------------------------------
  // String length
  // ---------------------------------------------------------------------

  /** `s.length` in JavaScript counts UTF-16 code units: a character outside
      the Basic Multilingual Plane counts twice. */
  function Utf16Length(s: string): (n: nat)
    ensures |s| <= n <= 2 * |s|
  {
    if |s| == 0 then 0
    else (if s[0] as int >= 0x1_0000 then 2 else 1) + Utf16Length(s[1..])
  }

  /** The length of a concatenation is the sum of the lengths. */
  lemma {:induction false} Utf16LengthConcat(a: string, b: string)
    ensures Utf16Length(a + b) == Utf16Length(a) + Utf16Length(b)
  {
    if |a| == 0 {
      assert a + b == b;
    } else {
      assert (a + b)[0] == a[0];
      assert (a + b)[1..] == a[1..] + b;
      Utf16LengthConcat(a[1..], b);
    }
  }

  /** A single character is one code unit inside the Basic Multilingual
      Plane and a surrogate pair, two code units, outside it. With
      `Utf16LengthConcat` this fixes the length of every string. */
  lemma Utf16LengthOfChar(c: char)
    ensures Utf16Length([c]) == if c as int >= 0x1_0000 then 2 else 1
  {
  }

  /** Text made only of Basic Multilingual Plane characters has one code
      unit per character. */
  lemma {:induction false} Utf16LengthBmp(s: string)
    requires forall i :: 0 <= i < |s| ==> s[i] as int < 0x1_0000
    ensures Utf16Length(s) == |s|
  {
    if |s| > 0 {
      Utf16LengthBmp(s[1..]);
    }
  }
}

=== FILE: types.dfy ===
/** The records the application stores and exchanges (types.ts). */
module Types {

  /** A value that may be absent: `undefined` in the source. */
  datatype Option<+T> = None | Some(value: T)

  /** The outcome of an operation that may fail instead of returning. */
  datatype Result<+T, +E> = Ok(value: T) | Err(error: E)

  /** One ingested news article; every field is free text. */
  datatype NewsArticle = NewsArticle(
    id: string,
    title: string,
    content: string,
    url: string,
    publishedAt: string,
    source: string,
    category: string)

  /** Who produced a chat turn: the source's `'user' | 'assistant'`. */
  datatype Role = User | Assistant

  /** One chat turn; `timestamp` is a millisecond clock reading. */
  datatype ChatMessage = ChatMessage(role: Role, content: string, timestamp: int)

  /** The stored state of one conversation. */
  datatype SessionData = SessionData(id: string, history: seq<ChatMessage>, lastUsed: int)

  /** One row of the interaction log. `timestamp` is an ISO date string,
      kept opaque; `tokens` is declared optional and never filled in. */
  datatype InteractionLog = InteractionLog(
    timestamp: string,
    sessionId: string,
    userQuery: string,
    llmResponse: string,
    responseTimeMs: int,
    tokens: Option<int>)
}
